=== FILE: README.md ===
# brunotest decision logic in Dafny

brunotest checks an assignment's test suite against *chaffs*: deliberately
broken variants of the solution. Each chaff lists, in `### Fails:` lines,
the tests that must fail on it. The command finds the stencil and the chaff
files, runs pytest against each candidate the user selected (chaffs by
name, and the stencil and the solution when they are named too or
`--run_all` is given), and reports whether each one behaved as expected.

This project models the pure decisions in `brunotest_cli/brunotest.py`:

- reading a chaff's expected failures (`get_chaff_expected_test_failures`);
- turning a pytest node id into a test name (`get_test_name`);
- the plugin's report handler (`pytest_runtest_logreport`) as a state
  transition over its four tables;
- the verdict of `simulate_autograder`;
- `find_stencil`, `find_chaff_paths`, chaff-name derivation and the
  request filter in `brunotest_cli_entry`.

File reads, directory listings, `os.walk` and pytest itself become inputs:
the chaff file's text, a list of entry names, a list of walk steps, and
the sequence of reports pytest delivers to the plugin. The Python string
and path operations the code leans on (`strip`, `startswith`, `endswith`,
`split`, `readlines`, `os.path.join`, `os.path.basename`) are modelled in
`text.dfy` and `paths.dfy`.

The region-substitution engine (`core/compiler.py`, called at
`brunotest.py` lines 123 and 130) is not part of this model.

Modules: `Wrappers` (option and result types), `Text`, `Paths`,
`ExpectedFailures`, `Plugin`, `Verdict`, `Selection`.

## Model

| member | source | states |
|---|---|---|
| Text.StripSplitsAroundWhitespace | brunotest_cli/brunotest.py:164 | `strip()` returns a middle with no whitespace at either end, and the input is whitespace, then that middle, then whitespace |
| Text.StripOfPadded | brunotest_cli/brunotest.py:164 | that decomposition is unique: stripping whitespace + trimmed text + whitespace gives back exactly the trimmed text |
| Text.StripIdempotent | brunotest_cli/brunotest.py:164 | stripping an already stripped name changes nothing |
| Text.TrimStartDropsLeadingSpace | brunotest_cli/brunotest.py:164 | the left half of `strip()` removes a whitespace-only prefix and stops at the first non-whitespace character |
| Text.TrimEndDropsTrailingSpace | brunotest_cli/brunotest.py:164 | the right half of `strip()` removes a whitespace-only suffix and stops at the last non-whitespace character |
| Text.SplitJoinRoundTrip | brunotest_cli/brunotest.py:188 | joining the pieces of `split(sep)` with `sep` gives back the input |
| Text.SplitPiecesFree | brunotest_cli/brunotest.py:188 | no piece of `split(sep)` contains `sep` |
| Text.SplitLastPiece | brunotest_cli/brunotest.py:188 | the last piece is the whole input when `sep` is absent, and otherwise the input ends with `sep` followed by that piece |
| Text.SplitFirstPiece | brunotest_cli/brunotest.py:403 | the first piece is the whole input when `sep` is absent; otherwise it is the prefix before the first `sep`: no occurrence of `sep` starts inside it and one starts right after it |
| Text.ReadLines | brunotest_cli/brunotest.py:157-158 | `readlines()` splits the text into non-empty lines that concatenate back to it; every line but the last ends in a newline, and no line has a newline anywhere else |
| Paths.PathJoin | brunotest_cli/brunotest.py:99 | `os.path.join` ends with the entry and is the entry when that is absolute or the directory is empty; otherwise it starts with the directory, directly followed by the entry when the directory ends in `/`, and by one inserted `/` and then the entry when it does not |
| Paths.Basename | brunotest_cli/brunotest.py:403 | `os.path.basename` is a suffix of the path with no `/`, preceded by a `/` when it is not the whole path |
| Paths.BasenameOfJoin | brunotest_cli/brunotest.py:111 | the basename of a directory joined with a `/`-free entry name is that entry name, whatever the directory |
| ExpectedFailures.GetChaffExpectedTestFailures | brunotest_cli/brunotest.py:141-166 | the line-by-line scan computes the expected-failure set: none without a chaff file (the solution), otherwise the stripped remainders of the lines that start with `### Fails:`, each free of surrounding whitespace |
| ExpectedFailures.DirectiveNamesAppend | brunotest_cli/brunotest.py:162-164 | a further line adds its directive's name if it starts with `### Fails:` and contributes nothing otherwise |
| ExpectedFailures.DirectiveNamesMembership | brunotest_cli/brunotest.py:160-166 | a name is expected exactly when some line is a directive naming it |
| ExpectedFailures.DirectiveNamesTrimmed | brunotest_cli/brunotest.py:164 | no expected name starts or ends with whitespace, the trailing newline included |
| ExpectedFailures.RepeatedDirectiveCollapses | brunotest_cli/brunotest.py:160-164 | repeating a line already present leaves the expected set unchanged |
| ExpectedFailures.DirectivePaddingIgnored | brunotest_cli/brunotest.py:137-138 | `### Fails:` followed by padded name yields exactly the name |
| Plugin.TestNameAfterLastSeparator | brunotest_cli/brunotest.py:184-188 | the test name is a suffix of the node id without `.py::`; it is the whole id when there is no `.py::`, and otherwise it follows the last `.py::` |
| Plugin.SeparatorIsLast | brunotest_cli/brunotest.py:188 | since `.py::` cannot overlap itself, no `.py::` occurrence reaches into the text after the one preceding the name |
| Plugin.LogReport | brunotest_cli/brunotest.py:190-209 | a non-`call` report leaves all four tables unchanged; a `call` report adds the name to the passed or to the failed set, records its stdout and its output (`""` without a failure report), and keeps the tables' key sets aligned |
| Plugin.ReplayRecordsOutcomes | brunotest_cli/brunotest.py:179-209 | from a fresh plugin, the passed and failed sets are exactly the names of the passing and failing `call` reports, and the output and stdout tables have exactly the recorded names as keys |
| Plugin.NamesAppend | brunotest_cli/brunotest.py:197-202 | one more report adds its name to the names with its outcome only when it is a `call` report |
| Plugin.LatestReportWins | brunotest_cli/brunotest.py:204-209 | a test's stdout and output come from its last `call` report |
| Plugin.NonCallReportsIgnored | brunotest_cli/brunotest.py:197 | removing all `setup` and `teardown` reports leaves the tables unchanged |
| Verdict.Judge | brunotest_cli/brunotest.py:270-286 | unexpected passes are the expected failures that passed, unexpected failures the failures that were not expected, and the chaff passes iff no expected failure passed and every failure was expected |
| Verdict.UnexpectedSetsBounded | brunotest_cli/brunotest.py:270-276 | unexpected passes lie within both the expected failures and the passed tests; unexpected failures lie within the failed tests and outside the expected failures |
| Verdict.NoExpectedFailuresMeansNoFailures | brunotest_cli/brunotest.py:278 | with no expected failures a chaff passes iff no test failed |
| Verdict.UnrunExpectationIrrelevant | brunotest_cli/brunotest.py:270-278 | listing an expected failure that never ran, or not listing it, gives the same result |
| Verdict.SimulateVerdict | brunotest_cli/brunotest.py:260-278 | a chaff behaves as expected iff every `call` report agrees with the directives: its test failed iff the test is listed |
| Verdict.SolutionMustPassEverything | brunotest_cli/brunotest.py:151-153 | the solution behaves as expected iff every `call` report passed |
| Verdict.ConflictingOutcomesAlwaysFail | brunotest_cli/brunotest.py:197-202 | two `call` reports with the same test name and different outcomes make the verdict fail, whatever the directives |
| Selection.StencilEntries | brunotest_cli/brunotest.py:90 | the collected entries are exactly the entries ending in `.stencil` |
| Selection.NoStencilEntries | brunotest_cli/brunotest.py:90-93 | nothing is collected iff no entry ends in `.stencil` |
| Selection.SeveralStencilEntries | brunotest_cli/brunotest.py:90-97 | two or more are collected iff two different entries end in `.stencil` |
| Selection.FindStencil | brunotest_cli/brunotest.py:85-99 | fails with no-stencil iff no entry ends in `.stencil`, with multiple-stencils iff two do, and otherwise returns the directory joined with the only stencil entry |
| Selection.ChaffPathsIn | brunotest_cli/brunotest.py:109-111 | the paths of one directory are its `.chaff` files joined to its root |
| Selection.ChaffPathsInAppend | brunotest_cli/brunotest.py:109-111 | a directory's paths follow its file order: splitting the file list in two gives the first part's paths, then the second's |
| Selection.ChaffPathsInSingle | brunotest_cli/brunotest.py:110-111 | a single file contributes its joined path once when it ends in `.chaff`, and nothing otherwise |
| Selection.FindChaffPaths | brunotest_cli/brunotest.py:102-113 | a path is found exactly when some walk step lists a `.chaff` file joined to that step's root to give it |
| Selection.FindChaffPathsAppend | brunotest_cli/brunotest.py:108-111 | paths come in walk order: splitting the walk in two gives the first part's paths, then the second's |
| Selection.FindChaffPathsSingle | brunotest_cli/brunotest.py:109-111 | one walk step contributes exactly the paths of its own `.chaff` files, in file order |
| Selection.ChaffName | brunotest_cli/brunotest.py:402-404 | a chaff's name is the prefix of its basename before the first `.` (the whole basename when there is none) |
| Selection.FirstDotPiece | brunotest_cli/brunotest.py:403 | `split(".")[0]` is a dot-free prefix followed by `.` whenever the text has one, and the whole text when it has none |
| Selection.ChaffNameOfWalkedFile | brunotest_cli/brunotest.py:402-404 | a walked chaff's name depends on its file name only, not on the directory it was found in |
| Selection.NamedChaffs | brunotest_cli/brunotest.py:406 | each chaff path is paired with its name, in listing order |
| Selection.Candidates | brunotest_cli/brunotest.py:405-409 | the candidates are the chaffs in listing order, then the stencil, then the solution without a path |
| Selection.KeepRequested | brunotest_cli/brunotest.py:411-416 | the kept candidates are an order-preserving sublist holding exactly the requested candidates |
| Selection.RunAllKeepsEverything | brunotest_cli/brunotest.py:415 | with `run_all` every candidate is kept |
| Selection.Select | brunotest_cli/brunotest.py:411-419 | selection fails with no-chaffs-specified iff no candidate was requested, and otherwise returns the non-empty kept list |
| Selection.PlanRuns | brunotest_cli/brunotest.py:400-419 | a stencil error comes first; otherwise the result is the selection from the walk's chaffs, the stencil and the solution, so it is the non-empty ordered sublist of exactly the requested candidates or the no-chaffs error; under `run_all` it is every candidate, and requesting `solution` always succeeds |

## Left out

- `core/compiler.py` (the region-substitution engine behind `compile_to_directory`) is not part of this model; the reports pytest delivers are the `reports` input of `Verdict.SimulateAutograder`.
- The choice of code to test (lines 249-258) is not modelled: a candidate named `solution` gets a copy of the solution directory instead of a compiled chaff. That includes a chaff whose file name starts with `solution.`, since its name is `solution`. Its `### Fails:` directives are still read from its own file (line 260). `Verdict.SimulateAutograder`'s `reports` are whatever pytest produced for the code chosen.
- The compile-only branch of the command (`-c`, lines 421-446) only creates directories and calls that engine.
- File-system effects: `remove_all`, `create_brunotest_dir`, `cleanup_brunotest_dir`, `os.mkdir`, `chdir`, `shutil.copytree`, and the `try`/`except` cleanup. Directory listings and `os.walk` are inputs, in the order the operating system gives them.
- The test loop of the command (lines 452-466) calls `simulate_autograder` once per selected candidate, in selection order, reading expected failures from the candidate's file and none for the solution; each call is `Verdict.SimulateAutograder`, and the loop adds no decision of its own.
- `os.path.abspath` of chaff paths (lines 456-458): it changes how the file is named, not which file is read.
- Running pytest: reports are inputs, reduced to `when`, `passed`, `nodeid`, `capstdout` and the rendered text of `longrepr`.
- Console and JSON output (`summarize_test_result`, `print_test_results_to_json`, the `print` at line 155): presentation only.
- `import_student_module`, `import_solution_module` and `core/imports.py`: dynamic module loading through `importlib`.
- `setup.py`: packaging metadata.
- Text.ReadLines: recognises only `\n` as a line end; the universal-newline translation of `\r\n` and `\r` done while reading the file, and decoding errors, are left to the file layer.
- Paths.PathJoin: two arguments, POSIX separators only.
- Selection.FindStencil: takes the directory as a string. The `--directory` option has no default (line 375); without it click passes `None`, `os.listdir(None)` lists the current directory, and `os.path.join(None, entry)` at line 99 raises `TypeError` once exactly one stencil is found. That path is not modelled.
- Text.Split: non-empty separators only, which is all the code uses.

=== FILE: expected_failures.dfy ===
/** Reading a chaff's expected test failures: every line that starts with
    the `### Fails:` directive names one test that the chaff is meant to
    break. */
module ExpectedFailures {
  import opened Wrappers
  import opened Text

  const FailurePrefix: string := "### Fails:"

  /** A line carrying an expected-failure directive. The directive must
      open the line: indented directives are not recognised. */
  predicate IsDirective(line: string) {
    StartsWith(line, FailurePrefix)
  }

  /** The test a directive line names: the rest of the line, without
      surrounding whitespace (which includes the line's own newline). */
  function DirectiveName(line: string): string
    requires IsDirective(line)
  {
    Strip(line[|FailurePrefix|..])
  }

  /** The names all directive lines of `lines` denote, as a set. */
  function DirectiveNames(lines: seq<string>): set<string>
  {
    set l | l in lines && IsDirective(l) :: DirectiveName(l)
  }

  /** The expected failures of a chaff whose file holds `chaffText`, or of
      the solution when there is no chaff file. */
  function ExpectedTestFailures(chaffText: Option<string>): set<string>
  {
    match chaffText
    case None => {}
    case Some(text) => DirectiveNames(ReadLines(text))
  }

  /** The line-by-line scan of the chaff file. */
  method GetChaffExpectedTestFailures(chaffText: Option<string>) returns (expected: set<string>)
    ensures expected == ExpectedTestFailures(chaffText)
    ensures forall t :: t in expected ==> Trimmed(t)
  {
    expected := {};
    if chaffText.None? {
      return;
    }
    var lines := ReadLines(chaffText.value);
    var i := 0;
    while i < |lines|
      invariant 0 <= i <= |lines|
      invariant expected == DirectiveNames(lines[..i])
    {
      assert lines[..i + 1] == lines[..i] + [lines[i]];
      DirectiveNamesAppend(lines[..i], lines[i]);
      if IsDirective(lines[i]) {
        expected := expected + {DirectiveName(lines[i])};
      }
      i := i + 1;
    }
    assert lines[..i] == lines;
    DirectiveNamesTrimmed(lines);
  }

  /** Appending one line adds its directive name, if it has one, and
      nothing otherwise. */
  lemma DirectiveNamesAppend(lines: seq<string>, line: string)
    ensures IsDirective(line) ==> DirectiveNames(lines + [line]) == DirectiveNames(lines) + {DirectiveName(line)}
    ensures !IsDirective(line) ==> DirectiveNames(lines + [line]) == DirectiveNames(lines)
  {
    var before, after := DirectiveNames(lines), DirectiveNames(lines + [line]);
    forall t | t in after
      ensures t in before || (IsDirective(line) && t == DirectiveName(line))
    {
      var l :| l in lines + [line] && IsDirective(l) && DirectiveName(l) == t;
      if l != line {
        assert l in lines;
      }
    }
    forall t | t in before ensures t in after {
      var l :| l in lines && IsDirective(l) && DirectiveName(l) == t;
      assert l in lines + [line];
    }
    if IsDirective(line) {
      assert line in lines + [line];
    }
  }

  /** A name is expected exactly when some directive line names it. */
  lemma DirectiveNamesMembership(lines: seq<string>, t: string)
    ensures t in DirectiveNames(lines) <==>
      exists k :: 0 <= k < |lines| && IsDirective(lines[k]) && DirectiveName(lines[k]) == t
  {
    if t in DirectiveNames(lines) {
      var l :| l in lines && IsDirective(l) && DirectiveName(l) == t;
      var k :| 0 <= k < |lines| && lines[k] == l;
    }
  }

  /** Every expected name is free of surrounding whitespace. */
  lemma DirectiveNamesTrimmed(lines: seq<string>)
    ensures forall t :: t in DirectiveNames(lines) ==> Trimmed(t)
  {
    forall t | t in DirectiveNames(lines) ensures Trimmed(t) {
      var l :| l in lines && IsDirective(l) && DirectiveName(l) == t;
      StripSplitsAroundWhitespace(l[|FailurePrefix|..]);
    }
  }

  /** Repeating a directive changes nothing: duplicates collapse. */
  lemma RepeatedDirectiveCollapses(lines: seq<string>, k: nat)
    requires k < |lines|
    ensures DirectiveNames(lines + [lines[k]]) == DirectiveNames(lines)
  {
    DirectiveNamesAppend(lines, lines[k]);
    if IsDirective(lines[k]) {
      assert DirectiveName(lines[k]) in DirectiveNames(lines);
    }
  }

  /** Whitespace around the name in a directive does not matter. */
  lemma DirectivePaddingIgnored(lead: string, name: string, trail: string)
    requires AllSpace(lead) && AllSpace(trail) && Trimmed(name)
    ensures IsDirective(FailurePrefix + lead + name + trail)
    ensures DirectiveName(FailurePrefix + lead + name + trail) == name
  {
    var line := FailurePrefix + lead + name + trail;
    assert line[..|FailurePrefix|] == FailurePrefix;
    assert line[|FailurePrefix|..] == lead + name + trail;
    StripOfPadded(lead, name, trail);
  }
}

=== FILE: paths.dfy ===
/** The two `os.path` operations the CLI uses on POSIX paths:
    `os.path.join(a, b)` and `os.path.basename(p)`. */
module Paths {
  import opened Text

  /** `os.path.join(a, b)`: an absolute `b` replaces `a`; otherwise `b` is
      appended, with a `/` in between unless `a` is empty or already ends
      in one. */
  function PathJoin(a: string, b: string): (r: string)
    ensures EndsWith(r, b)
    ensures StartsWith(b, "/") ==> r == b
    ensures !StartsWith(b, "/") ==> StartsWith(r, a)
    ensures !StartsWith(b, "/") && a == [] ==> r == b
    ensures !StartsWith(b, "/") && EndsWith(a, "/") ==> r == a + b
    ensures !StartsWith(b, "/") && a != [] && !EndsWith(a, "/") ==> |r| == |a| + 1 + |b| && r[|a|] == '/'
  {
    if StartsWith(b, "/") then b
    else if a == [] || EndsWith(a, "/") then a + b
    else a + "/" + b
  }

  /** `os.path.basename(p)`: everything after the last `/`. */
  function Basename(p: string): (r: string)
    ensures EndsWith(p, r)
    ensures '/' !in r
    ensures |r| < |p| ==> p[|p| - |r| - 1] == '/'
  {
    if p == [] || p[|p| - 1] == '/' then []
    else
      var front := p[..|p| - 1];
      var r := Basename(front);
      assert p == front + [p[|p| - 1]];
      EndsWithAppend(front, r, p[|p| - 1]);
      r + [p[|p| - 1]]
  }

  /** Joining a directory with an entry name and taking the basename gives
      the entry name back, whatever the directory. */
  lemma BasenameOfJoin(directory: string, entry: string)
    requires '/' !in entry
    ensures Basename(PathJoin(directory, entry)) == entry
  {
    var p := PathJoin(directory, entry);
    assert !StartsWith(entry, "/") by {
      if entry != [] { assert entry[0] != '/'; }
    }
    assert p[..|p| - |entry|] + entry == p;
    assert |entry| < |p| ==> p[|p| - |entry| - 1] == '/';
    BasenameOfSeparatedSuffix(p[..|p| - |entry|], entry);
  }

  /** The basename of `prefix + entry` is `entry` when `prefix` is empty or
      ends in `/` and `entry` has no `/`. */
  lemma {:induction false} BasenameOfSeparatedSuffix(prefix: string, entry: string)
    requires prefix == [] || prefix[|prefix| - 1] == '/'
    requires '/' !in entry
    ensures Basename(prefix + entry) == entry
    decreases |entry|
  {
    if entry == [] {
      assert prefix + entry == prefix;
    } else {
      var n := |entry| - 1;
      assert (prefix + entry)[..|prefix + entry| - 1] == prefix + entry[..n];
      BasenameOfSeparatedSuffix(prefix, entry[..n]);
      assert entry == entry[..n] + [entry[n]];
    }
  }
}

=== FILE: plugin.dfy ===
/** The pytest plugin that records, per test, whether it passed, its
    captured standard output and its failure report. Only the `call`
    phase of a test counts; `setup` and `teardown` reports are ignored. */
module Plugin {
  import opened Wrappers
  import opened Text

  /** What separates the test file's path from the test's own name in a
      pytest node id, as in `tests/test_math.py::test_add`. */
  const TestFileSeparator: string := ".py::"

  /** The phase of a report that carries the test's outcome. */
  const CallPhase: string := "call"

  /** The fields of a pytest test report the plugin reads. The failure
      representation is kept as the text `str(longrepr)` renders. */
  datatype Report = Report(
    when: string,
    passed: bool,
    nodeid: string,
    capstdout: string,
    longrepr: Option<string>)

  /** The plugin's four tables, keyed by test name. */
  datatype PluginState = PluginState(
    testOutputs: map<string, string>,
    testStdout: map<string, string>,
    passedTests: set<string>,
    failedTests: set<string>)

  const Initial: PluginState := PluginState(map[], map[], {}, {})

  /** Every recorded test has both an output and a stdout entry, and
      every entry belongs to a recorded test. */
  predicate Aligned(s: PluginState) {
    && s.testOutputs.Keys == s.passedTests + s.failedTests
    && s.testStdout.Keys == s.passedTests + s.failedTests
  }

  /** `get_test_name`: the last piece of the node id split at `.py::`. */
  function GetTestName(nodeid: string): string
  {
    var parts := Split(nodeid, TestFileSeparator);
    parts[|parts| - 1]
  }

  /** The test name is what follows the last `.py::` of the node id, or
      the whole id when it has none, and never contains `.py::`. */
  lemma TestNameAfterLastSeparator(nodeid: string)
    ensures var name := GetTestName(nodeid);
      && EndsWith(nodeid, name)
      && !Contains(name, TestFileSeparator)
      && (!Contains(nodeid, TestFileSeparator) ==> name == nodeid)
      && (Contains(nodeid, TestFileSeparator) ==> EndsWith(nodeid, TestFileSeparator + name))
      && forall j :: OccursAt(nodeid, TestFileSeparator, j) ==> j + |TestFileSeparator| <= |nodeid| - |name|
  {
    var name := SplitLastPiece(nodeid, TestFileSeparator);
    LastPieceFacts(nodeid, name);
  }

  /** What follows from the last piece's description alone. */
  lemma LastPieceFacts(nodeid: string, name: string)
    requires !Contains(name, TestFileSeparator)
    requires !Contains(nodeid, TestFileSeparator) ==> name == nodeid
    requires Contains(nodeid, TestFileSeparator) ==> EndsWith(nodeid, TestFileSeparator + name)
    ensures EndsWith(nodeid, name)
    ensures forall j :: OccursAt(nodeid, TestFileSeparator, j) ==> j + |TestFileSeparator| <= |nodeid| - |name|
  {
    if Contains(nodeid, TestFileSeparator) {
      SeparatorIsLast(nodeid, name);
      EndsWithTransitive(nodeid, TestFileSeparator + name, name);
    } else {
      assert nodeid[|nodeid| - |name|..] == nodeid;
      assert forall j :: !OccursAt(nodeid, TestFileSeparator, j);
    }
  }

  /** `.py::` cannot overlap itself, so once `nodeid` ends with `.py::`
      followed by a `name` free of it, that is the last occurrence. */
  lemma SeparatorIsLast(nodeid: string, name: string)
    requires EndsWith(nodeid, TestFileSeparator + name)
    requires !Contains(name, TestFileSeparator)
    ensures forall j :: OccursAt(nodeid, TestFileSeparator, j) ==> j + |TestFileSeparator| <= |nodeid| - |name|
  {
    var sep := TestFileSeparator;
    var e := |nodeid| - |name|;
    assert nodeid[e - |sep|..e] == sep by {
      assert nodeid[e - |sep|..] == sep + name;
    }
    assert nodeid[e..] == name by {
      assert nodeid[e - |sep|..] == sep + name;
    }
    assert forall i :: e - |sep| < i < e ==> nodeid[i] != '.' by {
      assert nodeid[e - |sep|..e] == sep;
      assert forall d :: 0 < d < |sep| ==> sep[d] != '.';
    }
    forall j | OccursAt(nodeid, sep, j) ensures j + |sep| <= e {
      assert nodeid[j] == '.' by {
        assert nodeid[j..j + |sep|] == sep;
      }
      if j >= e {
        assert name[j - e..j - e + |sep|] == nodeid[j..j + |sep|];
        assert OccursAt(name, sep, j - e);
        assert false;
      }
    }
  }

  /** What the plugin stores as a test's output: the rendered failure
      report, or the empty string when there is none. */
  function OutputOf(r: Report): string
  {
    match r.longrepr
    case Some(text) => text
    case None => ""
  }

  predicate IsCall(r: Report) {
    r.when == CallPhase
  }

  /** `pytest_runtest_logreport`: one report's effect on the tables. */
  function LogReport(s: PluginState, r: Report): (s': PluginState)
    ensures !IsCall(r) ==> s' == s
    ensures IsCall(r) ==> var name := GetTestName(r.nodeid);
      && s'.passedTests == (if r.passed then s.passedTests + {name} else s.passedTests)
      && s'.failedTests == (if r.passed then s.failedTests else s.failedTests + {name})
      && s'.testStdout == s.testStdout[name := r.capstdout]
      && s'.testOutputs == s.testOutputs[name := OutputOf(r)]
    ensures Aligned(s) ==> Aligned(s')
  {
    if IsCall(r) then
      var name := GetTestName(r.nodeid);
      PluginState(
        s.testOutputs[name := OutputOf(r)],
        s.testStdout[name := r.capstdout],
        if r.passed then s.passedTests + {name} else s.passedTests,
        if r.passed then s.failedTests else s.failedTests + {name})
    else
      s
  }

  /** The tables after pytest has delivered `reports`, in order, to a
      plugin in state `s`. */
  function Replay(s: PluginState, reports: seq<Report>): PluginState
  {
    if reports == [] then s
    else LogReport(Replay(s, reports[..|reports| - 1]), reports[|reports| - 1])
  }

  /** The names of the tests some `call` report says passed (`outcome`
      true) or failed (`outcome` false). */
  function NamesWithOutcome(reports: seq<Report>, outcome: bool): set<string>
  {
    set k | 0 <= k < |reports| && IsCall(reports[k]) && reports[k].passed == outcome :: GetTestName(reports[k].nodeid)
  }

  /** Starting from a fresh plugin, the passed and failed tables hold
      exactly the names of the passing and failing `call` reports, and
      the four tables stay aligned. */
  lemma {:induction false} ReplayRecordsOutcomes(reports: seq<Report>)
    ensures Replay(Initial, reports).passedTests == NamesWithOutcome(reports, true)
    ensures Replay(Initial, reports).failedTests == NamesWithOutcome(reports, false)
    ensures Aligned(Replay(Initial, reports))
  {
    if reports != [] {
      var n := |reports| - 1;
      ReplayRecordsOutcomes(reports[..n]);
      NamesAppend(reports, n, true);
      NamesAppend(reports, n, false);
    }
  }

  lemma NamesAppend(reports: seq<Report>, n: nat, outcome: bool)
    requires n == |reports| - 1
    ensures var r := reports[n];
      NamesWithOutcome(reports, outcome) ==
        NamesWithOutcome(reports[..n], outcome) + (if IsCall(r) && r.passed == outcome then {GetTestName(r.nodeid)} else {})
  {
    var front, r := reports[..n], reports[n];
    forall t | t in NamesWithOutcome(reports, outcome)
      ensures t in NamesWithOutcome(front, outcome) || (IsCall(r) && r.passed == outcome && t == GetTestName(r.nodeid))
    {
      var k :| 0 <= k < |reports| && IsCall(reports[k]) && reports[k].passed == outcome && GetTestName(reports[k].nodeid) == t;
      if k < n { assert front[k] == reports[k]; }
    }
    forall t | t in NamesWithOutcome(front, outcome) ensures t in NamesWithOutcome(reports, outcome) {
      var k :| 0 <= k < |front| && IsCall(front[k]) && front[k].passed == outcome && GetTestName(front[k].nodeid) == t;
      assert reports[k] == front[k];
    }
  }

  /** The stdout and output recorded for a test come from the last `call`
      report with that test's name: later reports overwrite earlier ones. */
  lemma {:induction false} LatestReportWins(s: PluginState, reports: seq<Report>, k: nat)
    requires k < |reports| && IsCall(reports[k])
    requires forall m :: k < m < |reports| && IsCall(reports[m]) ==>
      GetTestName(reports[m].nodeid) != GetTestName(reports[k].nodeid)
    ensures var name := GetTestName(reports[k].nodeid);
      && name in Replay(s, reports).testStdout
      && Replay(s, reports).testStdout[name] == reports[k].capstdout
      && name in Replay(s, reports).testOutputs
      && Replay(s, reports).testOutputs[name] == OutputOf(reports[k])
  {
    var n := |reports| - 1;
    var front, r := reports[..n], reports[n];
    var name := GetTestName(reports[k].nodeid);
    var before := Replay(s, front);
    assert Replay(s, reports) == LogReport(before, r);
    if k < n {
      assert forall m :: k < m < |front| ==> front[m] == reports[m];
      LatestReportWins(s, front, k);
      assert front[k] == reports[k];
      assert !IsCall(r) || GetTestName(r.nodeid) != name;
    }
  }

  /** Dropping every `setup` and `teardown` report changes nothing. */
  lemma {:induction false} NonCallReportsIgnored(s: PluginState, reports: seq<Report>)
    ensures Replay(s, reports) == Replay(s, CallsOnly(reports))
  {
    if reports != [] {
      var n := |reports| - 1;
      var front, r := reports[..n], reports[n];
      NonCallReportsIgnored(s, front);
      assert reports == front + [r];
      CallsOnlyAppend(front, r);
      var calls := CallsOnly(reports);
      if IsCall(r) {
        assert calls == CallsOnly(front) + [r];
        assert calls[..|calls| - 1] == CallsOnly(front);
        assert Replay(s, calls) == LogReport(Replay(s, CallsOnly(front)), r);
      } else {
        assert calls == CallsOnly(front);
      }
    }
  }

  /** The `call` reports of `reports`, in order. */
  function CallsOnly(reports: seq<Report>): seq<Report>
  {
    if reports == [] then []
    else if IsCall(reports[0]) then [reports[0]] + CallsOnly(reports[1..])
    else CallsOnly(reports[1..])
  }

  lemma {:induction false} CallsOnlyAppend(front: seq<Report>, r: Report)
    ensures CallsOnly(front + [r]) == CallsOnly(front) + (if IsCall(r) then [r] else [])
  {
    if front == [] {
      assert [] + [r] == [r];
    } else {
      assert (front + [r])[1..] == front[1..] + [r];
      CallsOnlyAppend(front[1..], r);
    }
  }
}

=== FILE: selection.dfy ===
/** Choosing what to run: the one stencil file at the top of the
    assignment directory, the chaff files below it, and the subset of
    chaffs, stencil and solution the user asked for. */
module Selection {
  import opened Wrappers
  import opened Text
  import opened Paths

  const StencilSuffix: string := ".stencil"
  const ChaffSuffix: string := ".chaff"
  const StencilName: string := "stencil"
  const SolutionName: string := "solution"

  /** The `FileNotFoundError`s raised while choosing what to run. */
  datatype SelectionError =
    | NoStencilFile        // no top-level entry ends with `.stencil`
    | MultipleStencilFiles // more than one does
    | NoChaffsSpecified    // the request selected nothing

  /** One run to perform: the file whose directives give the expected
      failures (none for the solution) and the name reported for it. */
  datatype Candidate = Candidate(path: Option<string>, name: string)

  /** One directory visited by `os.walk`: its path and its files. */
  datatype WalkStep = WalkStep(root: string, files: seq<string>)

  predicate IsStencil(entry: string) {
    EndsWith(entry, StencilSuffix)
  }

  /** The entries naming a stencil, in listing order. */
  function StencilEntries(entries: seq<string>): (r: seq<string>)
    ensures forall x :: x in r <==> x in entries && IsStencil(x)
  {
    if entries == [] then []
    else if IsStencil(entries[0]) then [entries[0]] + StencilEntries(entries[1..])
    else StencilEntries(entries[1..])
  }

  /** No entry is a stencil exactly when none was collected. */
  lemma {:induction false} NoStencilEntries(entries: seq<string>)
    ensures |StencilEntries(entries)| == 0 <==> forall i :: 0 <= i < |entries| ==> !IsStencil(entries[i])
  {
    if entries != [] {
      NoStencilEntries(entries[1..]);
      assert forall i :: 1 <= i < |entries| ==> entries[i] == entries[1..][i - 1];
    }
  }

  /** Two or more stencils were collected exactly when two different
      entries are stencils. */
  lemma {:induction false} SeveralStencilEntries(entries: seq<string>)
    ensures |StencilEntries(entries)| >= 2 <==>
      exists i, j :: 0 <= i < j < |entries| && IsStencil(entries[i]) && IsStencil(entries[j])
  {
    if entries != [] {
      var rest := entries[1..];
      SeveralStencilEntries(rest);
      NoStencilEntries(rest);
      if |StencilEntries(entries)| >= 2 {
        if IsStencil(entries[0]) {
          var j :| 0 <= j < |rest| && IsStencil(rest[j]);
          assert IsStencil(entries[0]) && IsStencil(entries[j + 1]);
        } else {
          var i, j :| 0 <= i < j < |rest| && IsStencil(rest[i]) && IsStencil(rest[j]);
          assert IsStencil(entries[i + 1]) && IsStencil(entries[j + 1]);
        }
      }
      if exists i, j :: 0 <= i < j < |entries| && IsStencil(entries[i]) && IsStencil(entries[j]) {
        var i, j :| 0 <= i < j < |entries| && IsStencil(entries[i]) && IsStencil(entries[j]);
        assert entries[j] == rest[j - 1];
        if i > 0 {
          assert entries[i] == rest[i - 1];
        }
      }
    }
  }

  /** `entries[i]` is a stencil and every stencil entry has its name. */
  predicate OnlyStencil(entries: seq<string>, i: nat)
    requires i < |entries|
  {
    IsStencil(entries[i]) && forall j :: 0 <= j < |entries| && IsStencil(entries[j]) ==> entries[j] == entries[i]
  }

  /** `find_stencil`: the directory joined with its only stencil entry,
      or an error when there is none or more than one. */
  function FindStencil(directory: string, entries: seq<string>): (r: Result<string, SelectionError>)
    ensures r == Err(NoStencilFile) <==> forall i :: 0 <= i < |entries| ==> !IsStencil(entries[i])
    ensures r == Err(MultipleStencilFiles) <==>
      exists i, j :: 0 <= i < j < |entries| && IsStencil(entries[i]) && IsStencil(entries[j])
    ensures r.Err? ==> r.error == NoStencilFile || r.error == MultipleStencilFiles
    ensures r.Ok? ==> exists i :: 0 <= i < |entries| && OnlyStencil(entries, i) && r.value == PathJoin(directory, entries[i])
  {
    var stencils := StencilEntries(entries);
    NoStencilEntries(entries);
    SeveralStencilEntries(entries);
    if |stencils| == 0 then
      Err(NoStencilFile)
    else if |stencils| > 1 then
      Err(MultipleStencilFiles)
    else
      assert stencils[0] in stencils;
      assert forall x :: x in stencils ==> x == stencils[0];
      Ok(PathJoin(directory, stencils[0]))
  }

  /** The `.chaff` files of one directory, joined to its path. */
  function ChaffPathsIn(root: string, files: seq<string>): (r: seq<string>)
    ensures forall p :: p in r <==> exists f :: f in files && EndsWith(f, ChaffSuffix) && p == PathJoin(root, f)
  {
    if files == [] then []
    else
      var rest := ChaffPathsIn(root, files[1..]);
      assert forall f :: f in files[1..] ==> f in files;
      if EndsWith(files[0], ChaffSuffix) then [PathJoin(root, files[0])] + rest else rest
  }

  /** `p` is the path of a `.chaff` file some step of the walk lists. */
  predicate FoundInWalk(walk: seq<WalkStep>, p: string) {
    exists k, f :: 0 <= k < |walk| && f in walk[k].files && EndsWith(f, ChaffSuffix) && p == PathJoin(walk[k].root, f)
  }

  /** `find_chaff_paths`: every `.chaff` file of the walk, in walk order. */
  function FindChaffPaths(walk: seq<WalkStep>): (r: seq<string>)
    ensures forall p :: p in r <==> FoundInWalk(walk, p)
  {
    if walk == [] then []
    else
      var rest := FindChaffPaths(walk[1..]);
      var here := ChaffPathsIn(walk[0].root, walk[0].files);
      assert forall p :: p in rest ==> FoundInWalk(walk, p) by {
        forall p | p in rest ensures FoundInWalk(walk, p) {
          var k, f :| 0 <= k < |walk[1..]| && f in walk[1..][k].files && EndsWith(f, ChaffSuffix) && p == PathJoin(walk[1..][k].root, f);
          assert walk[k + 1] == walk[1..][k];
        }
      }
      assert forall p :: FoundInWalk(walk, p) ==> p in here || p in rest by {
        forall p | FoundInWalk(walk, p) ensures p in here || p in rest {
          var k, f :| 0 <= k < |walk| && f in walk[k].files && EndsWith(f, ChaffSuffix) && p == PathJoin(walk[k].root, f);
          if k > 0 {
            assert walk[1..][k - 1] == walk[k];
            assert FoundInWalk(walk[1..], p);
          }
        }
      }
      here + rest
  }

  /** The paths of one directory's files come in file order: a file list
      split in two gives the paths of the first part, then the second. */
  lemma {:induction false} ChaffPathsInAppend(root: string, files1: seq<string>, files2: seq<string>)
    ensures ChaffPathsIn(root, files1 + files2) == ChaffPathsIn(root, files1) + ChaffPathsIn(root, files2)
    decreases |files1|
  {
    if files1 == [] {
      assert files1 + files2 == files2;
    } else {
      assert (files1 + files2)[1..] == files1[1..] + files2;
      ChaffPathsInAppend(root, files1[1..], files2);
    }
  }

  /** One file contributes its joined path once if it is a `.chaff` file,
      and nothing otherwise. */
  lemma ChaffPathsInSingle(root: string, file: string)
    ensures ChaffPathsIn(root, [file]) == if EndsWith(file, ChaffSuffix) then [PathJoin(root, file)] else []
  {
  }

  /** The walk's paths come in walk order: a walk split in two gives the
      paths of the first part, then those of the second. */
  lemma {:induction false} FindChaffPathsAppend(walk1: seq<WalkStep>, walk2: seq<WalkStep>)
    ensures FindChaffPaths(walk1 + walk2) == FindChaffPaths(walk1) + FindChaffPaths(walk2)
    decreases |walk1|
  {
    if walk1 == [] {
      assert walk1 + walk2 == walk2;
    } else {
      assert (walk1 + walk2)[1..] == walk1[1..] + walk2;
      FindChaffPathsAppend(walk1[1..], walk2);
    }
  }

  /** One walk step contributes exactly the paths of its own files. */
  lemma FindChaffPathsSingle(step: WalkStep)
    ensures FindChaffPaths([step]) == ChaffPathsIn(step.root, step.files)
  {
  }

  /** A chaff's name: its file name up to the first `.`. */
  function ChaffName(path: string): (name: string)
    ensures var base := Basename(path);
      && StartsWith(base, name)
      && '.' !in name && '/' !in name
      && ('.' !in base ==> name == base)
      && ('.' in base ==> base[|name|] == '.')
  {
    var base := Basename(path);
    FirstDotPiece(base);
    Split(base, ".")[0]
  }

  lemma FirstDotPiece(base: string)
    ensures var name := Split(base, ".")[0];
      && StartsWith(base, name)
      && '.' !in name
      && ('.' !in base ==> name == base)
      && ('.' in base ==> base[|name|] == '.')
  {
    var name := Split(base, ".")[0];
    SplitFirstPiece(base, ".");
    ContainsChar(name, '.');
    ContainsChar(base, '.');
    if '.' in base {
      assert OccursAt(base, ".", |name|);
      assert base[|name|] == base[|name|..|name| + 1][0];
    }
  }

  /** The name of a chaff found in a walked directory depends on its file
      name alone, not on where the walk found it. */
  lemma ChaffNameOfWalkedFile(root: string, file: string)
    requires '/' !in file
    ensures ChaffName(PathJoin(root, file)) == ChaffName(file)
  {
    BasenameOfJoin(root, file);
    BasenameOfJoin("", file);
  }

  /** Every chaff found, then the stencil, then the solution. */
  function Candidates(chaffPaths: seq<string>, stencilPath: string): (cs: seq<Candidate>)
    ensures |cs| == |chaffPaths| + 2
    ensures forall i :: 0 <= i < |chaffPaths| ==> cs[i] == Candidate(Some(chaffPaths[i]), ChaffName(chaffPaths[i]))
    ensures cs[|chaffPaths|] == Candidate(Some(stencilPath), StencilName)
    ensures cs[|chaffPaths| + 1] == Candidate(None, SolutionName)
  {
    NamedChaffs(chaffPaths) + [Candidate(Some(stencilPath), StencilName), Candidate(None, SolutionName)]
  }

  function NamedChaffs(chaffPaths: seq<string>): (cs: seq<Candidate>)
    ensures |cs| == |chaffPaths|
    ensures forall i :: 0 <= i < |chaffPaths| ==> cs[i] == Candidate(Some(chaffPaths[i]), ChaffName(chaffPaths[i]))
  {
    if chaffPaths == [] then []
    else [Candidate(Some(chaffPaths[0]), ChaffName(chaffPaths[0]))] + NamedChaffs(chaffPaths[1..])
  }

  /** Whether the user asked for a candidate. */
  predicate Requested(c: Candidate, chaffs: seq<string>, runAll: bool) {
    c.name in chaffs || runAll
  }

  /** `a` is `b` with some elements left out, order kept. */
  predicate IsSubsequence<T(==)>(a: seq<T>, b: seq<T>)
    decreases |b|
  {
    if a == [] then true
    else if b == [] then false
    else if a[0] == b[0] then IsSubsequence(a[1..], b[1..])
    else IsSubsequence(a, b[1..])
  }

  /** The candidates the user asked for, in candidate order. */
  function KeepRequested(cs: seq<Candidate>, chaffs: seq<string>, runAll: bool): (kept: seq<Candidate>)
    ensures IsSubsequence(kept, cs)
    ensures forall c :: c in kept <==> c in cs && Requested(c, chaffs, runAll)
  {
    if cs == [] then []
    else
      var rest := KeepRequested(cs[1..], chaffs, runAll);
      assert forall c :: c in cs[1..] ==> c in cs;
      if Requested(cs[0], chaffs, runAll) then
        [cs[0]] + rest
      else
        assert rest == [] || rest[0] != cs[0] by {
          if rest != [] { assert rest[0] in rest; }
        }
        rest
  }

  /** With `run_all` every candidate is kept. */
  lemma {:induction false} RunAllKeepsEverything(cs: seq<Candidate>, chaffs: seq<string>)
    ensures KeepRequested(cs, chaffs, true) == cs
  {
    if cs != [] {
      RunAllKeepsEverything(cs[1..], chaffs);
    }
  }

  /** The selection step: the requested candidates, or an error when that
      leaves nothing to run. */
  function Select(cs: seq<Candidate>, chaffs: seq<string>, runAll: bool): (r: Result<seq<Candidate>, SelectionError>)
    ensures r.Err? <==> forall c :: c in cs ==> !Requested(c, chaffs, runAll)
    ensures r.Err? ==> r.error == NoChaffsSpecified
    ensures r.Ok? ==> r.value == KeepRequested(cs, chaffs, runAll) && r.value != []
  {
    var kept := KeepRequested(cs, chaffs, runAll);
    if |kept| == 0 then
      Err(NoChaffsSpecified)
    else
      assert kept[0] in kept;
      Ok(kept)
  }

  /** The command's choice of runs (everything before compiling or
      testing): the stencil, the chaffs found by the walk, and the
      requested subset of them. */
  function PlanRuns(directory: string, entries: seq<string>, walk: seq<WalkStep>,
                    chaffs: seq<string>, runAll: bool): (r: Result<seq<Candidate>, SelectionError>)
    ensures FindStencil(directory, entries).Err? ==> r == Err(FindStencil(directory, entries).error)
    ensures r.Ok? ==> IsSubsequence(r.value, Candidates(FindChaffPaths(walk), FindStencil(directory, entries).value))
    ensures r.Ok? && runAll ==> r.value == Candidates(FindChaffPaths(walk), FindStencil(directory, entries).value)
    ensures FindStencil(directory, entries).Ok? && (runAll || SolutionName in chaffs) ==> r.Ok?
    ensures FindStencil(directory, entries).Ok? && !runAll && chaffs == [] ==> r == Err(NoChaffsSpecified)
    ensures FindStencil(directory, entries).Ok? ==>
      r == Select(Candidates(FindChaffPaths(walk), FindStencil(directory, entries).value), chaffs, runAll)
  {
    match FindStencil(directory, entries)
    case Err(e) => Err(e)
    case Ok(stencilPath) =>
      var cs := Candidates(FindChaffPaths(walk), stencilPath);
      assert cs[|cs| - 1] in cs;
      RunAllKeepsEverything(cs, chaffs);
      Select(cs, chaffs, runAll)
  }
}

=== FILE: text.dfy ===
/** The few Python `str` operations the CLI relies on: `strip()`,
    `startswith`, `endswith`, `find`, `split(sep)` and `readlines()`,
    over strings modelled as sequences of characters. */
module Text {
  import opened Wrappers

  /** The characters Python's argument-less `str.strip()` removes: those
      `str.isspace()` accepts (tab to carriage return, the four ASCII
      separators, and the Unicode spaces and line/paragraph separators). */
  predicate IsSpace(c: char) {
    || c == ' ' || '\t' <= c <= '\r' || '\U{001C}' <= c <= '\U{001F}'
    || c == '\U{0085}' || c == '\U{00A0}' || c == '\U{1680}'
    || '\U{2000}' <= c <= '\U{200A}' || c == '\U{2028}' || c == '\U{2029}'
    || c == '\U{202F}' || c == '\U{205F}' || c == '\U{3000}'
  }

  predicate AllSpace(s: string) {
    forall i :: 0 <= i < |s| ==> IsSpace(s[i])
  }

  /** A string with no whitespace at either end. */
  predicate Trimmed(s: string) {
    s == [] || (!IsSpace(s[0]) && !IsSpace(s[|s| - 1]))
  }

  predicate StartsWith(s: string, prefix: string) {
    |prefix| <= |s| && s[..|prefix|] == prefix
  }

  predicate EndsWith(s: string, suffix: string) {
    |suffix| <= |s| && s[|s| - |suffix|..] == suffix
  }

  /** `pat` occurs in `s` starting at index `i`. */
  predicate OccursAt(s: string, pat: string, i: int) {
    0 <= i && i + |pat| <= |s| && s[i..i + |pat|] == pat
  }

  /** Python's `pat in s`. */
  predicate Contains(s: string, pat: string) {
    exists i :: 0 <= i <= |s| && OccursAt(s, pat, i)
  }

  /** Removes leading whitespace. */
  function TrimStart(s: string): string
  {
    if s != [] && IsSpace(s[0]) then TrimStart(s[1..]) else s
  }

  /** Removes trailing whitespace. */
  function TrimEnd(s: string): string
  {
    if s != [] && IsSpace(s[|s| - 1]) then TrimEnd(s[..|s| - 1]) else s
  }

  /** `TrimStart` drops a run of whitespace and stops at the first
      character that is not whitespace. */
  lemma {:induction false} TrimStartDropsLeadingSpace(s: string)
    ensures var r := TrimStart(s);
      && |r| <= |s| && r == s[|s| - |r|..]
      && AllSpace(s[..|s| - |r|])
      && (r == [] || !IsSpace(r[0]))
  {
    if s != [] && IsSpace(s[0]) {
      TrimStartDropsLeadingSpace(s[1..]);
      var r := TrimStart(s[1..]);
      assert r == s[|s| - |r|..];
      forall i | 0 <= i < |s| - |r| ensures IsSpace(s[i]) {
        if i > 0 {
          assert s[i] == s[1..][..|s| - 1 - |r|][i - 1];
        }
      }
    }
  }

  /** `TrimEnd` drops a run of whitespace and stops at the last character
      that is not whitespace. */
  lemma {:induction false} TrimEndDropsTrailingSpace(s: string)
    ensures var r := TrimEnd(s);
      && |r| <= |s| && r == s[..|r|]
      && AllSpace(s[|r|..])
      && (r == [] || !IsSpace(r[|r| - 1]))
  {
    if s != [] && IsSpace(s[|s| - 1]) {
      TrimEndDropsTrailingSpace(s[..|s| - 1]);
      var r := TrimEnd(s[..|s| - 1]);
      assert s[..|r|] == s[..|s| - 1][..|r|];
      assert s[|r|..] == s[..|s| - 1][|r|..] + [s[|s| - 1]];
    }
  }

  /** Python's `s.strip()`. */
  function Strip(s: string): (r: string)
  {
    TrimEnd(TrimStart(s))
  }

  /** `Strip` cuts `s` into whitespace, a trimmed middle and whitespace,
      and returns the middle. */
  lemma StripSplitsAroundWhitespace(s: string)
    ensures Trimmed(Strip(s))
    ensures exists lead, trail :: AllSpace(lead) && AllSpace(trail) && s == lead + Strip(s) + trail
  {
    var t := TrimStart(s);
    var r := TrimEnd(t);
    TrimStartDropsLeadingSpace(s);
    TrimEndDropsTrailingSpace(t);
    if r != [] {
      assert r[0] == t[0];
    }
    var lead, trail := s[..|s| - |t|], t[|r|..];
    Recompose(s, t, r);
    assert AllSpace(lead) && AllSpace(trail) && s == lead + r + trail;
  }

  lemma Recompose(s: string, t: string, r: string)
    requires |t| <= |s| && t == s[|s| - |t|..]
    requires |r| <= |t| && r == t[..|r|]
    ensures s == s[..|s| - |t|] + r + t[|r|..]
  {
    assert s == s[..|s| - |t|] + t;
    assert t == r + t[|r|..];
  }

  /** The middle of a whitespace / trimmed / whitespace decomposition is
      unique, so `Strip` is the only function meeting the description
      above. */
  lemma StripOfPadded(lead: string, mid: string, trail: string)
    requires AllSpace(lead) && AllSpace(trail) && Trimmed(mid)
    ensures Strip(lead + mid + trail) == mid
  {
    if mid == [] {
      assert lead + mid + trail == lead + trail;
      TrimStartOfPadded(lead + trail, []);
      assert lead + trail + [] == lead + trail;
    } else {
      assert lead + mid + trail == lead + (mid + trail);
      TrimStartOfPadded(lead, mid + trail);
      TrimEndOfPadded(mid, trail);
    }
  }

  lemma {:induction false} TrimStartOfPadded(lead: string, rest: string)
    requires AllSpace(lead)
    requires rest == [] || !IsSpace(rest[0])
    ensures TrimStart(lead + rest) == rest
  {
    if lead != [] {
      assert (lead + rest)[1..] == lead[1..] + rest;
      TrimStartOfPadded(lead[1..], rest);
    } else {
      assert lead + rest == rest;
    }
  }

  lemma {:induction false} TrimEndOfPadded(rest: string, trail: string)
    requires AllSpace(trail)
    requires rest == [] || !IsSpace(rest[|rest| - 1])
    ensures TrimEnd(rest + trail) == rest
  {
    if trail != [] {
      var n := |trail| - 1;
      assert (rest + trail)[..|rest + trail| - 1] == rest + trail[..n];
      TrimEndOfPadded(rest, trail[..n]);
    } else {
      assert rest + trail == rest;
    }
  }

  /** Stripping twice is stripping once. */
  lemma StripIdempotent(s: string)
    ensures Strip(Strip(s)) == Strip(s)
  {
    StripSplitsAroundWhitespace(s);
    var m := Strip(s);
    assert m == [] + m + [];
    StripOfPadded([], m, []);
  }

  /** Python's `s.find(pat, start)`: the first index at or after `start`
      where `pat` occurs. */
  function FindFrom(s: string, pat: string, start: nat): (r: Option<nat>)
    requires start <= |s|
    ensures r.Some? ==> start <= r.value && OccursAt(s, pat, r.value)
    ensures r.Some? ==> forall j :: start <= j < r.value ==> !OccursAt(s, pat, j)
    ensures r.None? ==> forall j :: start <= j ==> !OccursAt(s, pat, j)
    decreases |s| - start
  {
    if start + |pat| > |s| then None
    else if s[start..start + |pat|] == pat then Some(start)
    else FindFrom(s, pat, start + 1)
  }

  /** Python's `sep.join(parts)`. */
  function Join(parts: seq<string>, sep: string): string
  {
    if |parts| == 0 then ""
    else if |parts| == 1 then parts[0]
    else parts[0] + sep + Join(parts[1..], sep)
  }

  /** Python's `s.split(sep)` for a non-empty separator: the pieces between
      the occurrences of `sep` found scanning left to right. */
  function Split(s: string, sep: string): (parts: seq<string>)
    requires |sep| > 0
    ensures |parts| >= 1
    decreases |s|
  {
    match FindFrom(s, sep, 0)
    case None => [s]
    case Some(i) => [s[..i]] + Split(s[i + |sep|..], sep)
  }

  /** One step of `Split`: the text before the first occurrence, then the
      pieces of what follows it. */
  lemma {:induction false} SplitUnfold(s: string, sep: string, i: nat)
    requires |sep| > 0
    requires FindFrom(s, sep, 0) == Some(i)
    ensures Split(s, sep) == [s[..i]] + Split(s[i + |sep|..], sep)
  {
    match FindFrom(s, sep, 0)
    case None =>
    case Some(j) => assert j == i;
  }

  /** The text before the first occurrence does not contain `sep`. */
  lemma NothingBeforeFirst(s: string, sep: string, i: nat)
    requires |sep| > 0 && i <= |s|
    requires forall j :: 0 <= j < i ==> !OccursAt(s, sep, j)
    ensures !Contains(s[..i], sep)
  {
    var head := s[..i];
    forall j | 0 <= j <= |head| && OccursAt(head, sep, j) ensures false {
      assert s[j..j + |sep|] == head[j..j + |sep|];
      assert OccursAt(s, sep, j);
    }
  }

  /** When `sep` is not found, `Split` returns `s` alone. */
  lemma SplitNotFound(s: string, sep: string)
    requires |sep| > 0
    requires FindFrom(s, sep, 0) == None
    ensures !Contains(s, sep)
    ensures Split(s, sep) == [s]
  {
  }

  /** Joining the pieces with `sep` gives back the input. */
  lemma {:induction false} SplitJoinRoundTrip(s: string, sep: string)
    requires |sep| > 0
    ensures Join(Split(s, sep), sep) == s
    decreases |s|
  {
    match FindFrom(s, sep, 0)
    case None =>
    case Some(i) =>
      var rest := s[i + |sep|..];
      SplitUnfold(s, sep, i);
      SplitJoinRoundTrip(rest, sep);
      var parts, restParts := Split(s, sep), Split(rest, sep);
      assert parts[1..] == restParts;
      assert Join(parts, sep) == s[..i] + sep + rest;
      assert s == s[..i] + s[i..i + |sep|] + rest;
  }

  /** No piece contains `sep`. */
  lemma {:induction false} SplitPiecesFree(s: string, sep: string)
    requires |sep| > 0
    ensures forall k :: 0 <= k < |Split(s, sep)| ==> !Contains(Split(s, sep)[k], sep)
    decreases |s|
  {
    match FindFrom(s, sep, 0)
    case None =>
    case Some(i) =>
      var rest := s[i + |sep|..];
      SplitUnfold(s, sep, i);
      NothingBeforeFirst(s, sep, i);
      SplitPiecesFree(rest, sep);
      var parts, restParts := Split(s, sep), Split(rest, sep);
      forall k | 0 < k < |parts| ensures !Contains(parts[k], sep) {
        assert parts[k] == restParts[k - 1];
      }
  }

  /** The last piece of a split is all of `s` when `sep` does not occur,
      and otherwise what follows some occurrence of `sep`; it never
      contains `sep`. */
  lemma {:induction false} SplitLastPiece(s: string, sep: string) returns (last: string)
    requires |sep| > 0
    ensures var parts := Split(s, sep); last == parts[|parts| - 1]
    ensures !Contains(last, sep)
    ensures !Contains(s, sep) ==> last == s
    ensures Contains(s, sep) ==> EndsWith(s, sep + last)
    decreases |s|
  {
    match FindFrom(s, sep, 0)
    case None =>
      SplitNotFound(s, sep);
      last := s;
    case Some(i) =>
      var rest := s[i + |sep|..];
      SplitUnfold(s, sep, i);
      last := SplitLastPiece(rest, sep);
      var parts, restParts := Split(s, sep), Split(rest, sep);
      assert parts[|parts| - 1] == restParts[|restParts| - 1];
      assert OccursAt(s, sep, i);
      if Contains(rest, sep) {
        EndsWithSuffix(s, i + |sep|);
        EndsWithTransitive(s, rest, sep + last);
      } else {
        assert s[i..i + |sep|] == sep;
        assert s[i..] == s[i..i + |sep|] + rest;
        EndsWithSuffix(s, i);
      }
  }

  lemma EndsWithSuffix(s: string, k: nat)
    requires k <= |s|
    ensures EndsWith(s, s[k..])
  {
  }

  lemma EndsWithAppend(s: string, suffix: string, c: char)
    requires EndsWith(s, suffix)
    ensures EndsWith(s + [c], suffix + [c])
  {
    assert (s + [c])[|s| - |suffix|..] == s[|s| - |suffix|..] + [c];
  }

  lemma EndsWithTransitive(a: string, b: string, c: string)
    requires EndsWith(a, b) && EndsWith(b, c)
    ensures EndsWith(a, c)
  {
    assert a[|a| - |c|..] == a[|a| - |b|..][|b| - |c|..];
  }

  /** The first piece of a split is all of `s` when `sep` does not occur,
      and otherwise the text before the first occurrence. */
  lemma {:induction false} SplitFirstPiece(s: string, sep: string)
    requires |sep| > 0
    ensures var first := Split(s, sep)[0];
      && StartsWith(s, first)
      && !Contains(first, sep)
      && (!Contains(s, sep) ==> first == s)
      && (forall j :: 0 <= j < |first| ==> !OccursAt(s, sep, j))
      && (Contains(s, sep) <==> OccursAt(s, sep, |first|))
  {
    match FindFrom(s, sep, 0)
    case None =>
      SplitNotFound(s, sep);
    case Some(i) =>
      SplitUnfold(s, sep, i);
      NothingBeforeFirst(s, sep, i);
  }

  /** A one-character pattern occurs exactly when the character does. */
  lemma ContainsChar(s: string, c: char)
    ensures Contains(s, [c]) <==> c in s
  {
    if c in s {
      var i :| 0 <= i < |s| && s[i] == c;
      assert s[i..i + 1] == [c];
      assert OccursAt(s, [c], i);
    }
    if Contains(s, [c]) {
      var i :| 0 <= i <= |s| && OccursAt(s, [c], i);
      assert s[i] == s[i..i + 1][0];
    }
  }

  /** Python's `text.splitlines(keepends=True)` restricted to `\n`, which
      is what `readlines()` returns on a newline-translated text file. */
  function ReadLines(text: string): (lines: seq<string>)
    ensures Concat(lines) == text
    ensures forall k :: 0 <= k < |lines| ==> lines[k] != []
    ensures forall k :: 0 <= k < |lines| - 1 ==> lines[k][|lines[k]| - 1] == '\n'
    ensures forall k, j :: 0 <= k < |lines| && 0 <= j < |lines[k]| - 1 ==> lines[k][j] != '\n'
    decreases |text|
  {
    if text == [] then []
    else
      match FindFrom(text, "\n", 0)
      case None =>
        assert forall j :: 0 <= j < |text| ==> text[j] != '\n' by {
          forall j | 0 <= j < |text| ensures text[j] != '\n' {
            assert !OccursAt(text, "\n", j);
          }
        }
        [text]
      case Some(i) =>
        var line := text[..i + 1];
        assert text == line + text[i + 1..];
        assert forall j :: 0 <= j < i ==> line[j] != '\n' by {
          forall j | 0 <= j < i ensures line[j] != '\n' {
            assert !OccursAt(text, "\n", j);
          }
        }
        assert text[i..i + 1] == "\n";
        [line] + ReadLines(text[i + 1..])
  }

  function Concat(lines: seq<string>): string
  {
    if lines == [] then "" else lines[0] + Concat(lines[1..])
  }
}

=== FILE: verdict.dfy ===
/** Deciding whether a chaff behaved as expected: the tests named in its
    `### Fails:` directives must fail and every other test must pass. */
module Verdict {
  import opened Wrappers
  import opened Plugin
  import opened ExpectedFailures

  /** The outcome of running the tests against one chaff. */
  datatype AutograderResult = AutograderResult(
    passed: bool,
    chaffName: string,
    testsFailedUnexpectedly: set<string>,
    testsPassedUnexpectedly: set<string>,
    testDetails: map<string, string>,
    testStdout: map<string, string>)

  /** The verdict drawn from the expected failures and the plugin's tables
      once pytest has finished. */
  function Judge(chaffName: string, expected: set<string>, plugin: PluginState): (r: AutograderResult)
    ensures forall t :: t in r.testsPassedUnexpectedly <==> t in expected && t in plugin.passedTests
    ensures forall t :: t in r.testsFailedUnexpectedly <==> t in plugin.failedTests && t !in expected
    ensures r.passed <==> expected !! plugin.passedTests && plugin.failedTests <= expected
    ensures r.chaffName == chaffName
    ensures r.testDetails == plugin.testOutputs && r.testStdout == plugin.testStdout
  {
    var passedUnexpectedly := expected * plugin.passedTests;
    var failedUnexpectedly := plugin.failedTests - expected;
    var passed := |passedUnexpectedly| == 0 && |failedUnexpectedly| == 0;
    AutograderResult(passed, chaffName, failedUnexpectedly, passedUnexpectedly,
                     plugin.testOutputs, plugin.testStdout)
  }

  /** The two unexpected sets sit where they should: unexpected passes
      among the expected failures that passed, unexpected failures among
      the failures that were not expected. */
  lemma UnexpectedSetsBounded(chaffName: string, expected: set<string>, plugin: PluginState)
    ensures var r := Judge(chaffName, expected, plugin);
      && r.testsPassedUnexpectedly <= expected
      && r.testsPassedUnexpectedly <= plugin.passedTests
      && r.testsFailedUnexpectedly <= plugin.failedTests
      && r.testsFailedUnexpectedly !! expected
  {
  }

  /** Without expected failures a chaff passes exactly when no test
      failed. */
  lemma NoExpectedFailuresMeansNoFailures(chaffName: string, plugin: PluginState)
    ensures Judge(chaffName, {}, plugin).passed <==> plugin.failedTests == {}
  {
  }

  /** An expected failure that never ran is neither passed nor failed, so
      listing it or not makes no difference to the result. */
  lemma UnrunExpectationIrrelevant(chaffName: string, expected: set<string>, plugin: PluginState, t: string)
    requires t !in plugin.passedTests && t !in plugin.failedTests
    ensures Judge(chaffName, expected + {t}, plugin) == Judge(chaffName, expected - {t}, plugin)
  {
    assert (expected + {t}) * plugin.passedTests == (expected - {t}) * plugin.passedTests;
    assert plugin.failedTests - (expected + {t}) == plugin.failedTests - (expected - {t});
  }

  /** `simulate_autograder` with the file system and pytest replaced by
      the chaff file's text (absent for the solution) and the reports
      pytest delivers to the plugin. */
  function SimulateAutograder(chaffText: Option<string>, chaffName: string, reports: seq<Report>): AutograderResult
  {
    Judge(chaffName, ExpectedTestFailures(chaffText), Replay(Initial, reports))
  }

  /** A chaff behaves as expected exactly when every `call` report agrees
      with the directives: the test failed if and only if it is listed. */
  lemma SimulateVerdict(chaffText: Option<string>, chaffName: string, reports: seq<Report>)
    ensures SimulateAutograder(chaffText, chaffName, reports).passed <==>
      forall k :: 0 <= k < |reports| && IsCall(reports[k]) ==>
        (GetTestName(reports[k].nodeid) in ExpectedTestFailures(chaffText) <==> !reports[k].passed)
  {
    var expected := ExpectedTestFailures(chaffText);
    ReplayRecordsOutcomes(reports);
    var plugin := Replay(Initial, reports);
    var agree := forall k :: 0 <= k < |reports| && IsCall(reports[k]) ==>
        (GetTestName(reports[k].nodeid) in expected <==> !reports[k].passed);
    if expected !! plugin.passedTests && plugin.failedTests <= expected {
      forall k | 0 <= k < |reports| && IsCall(reports[k])
        ensures GetTestName(reports[k].nodeid) in expected <==> !reports[k].passed
      {
        var name := GetTestName(reports[k].nodeid);
        assert name in NamesWithOutcome(reports, reports[k].passed);
      }
    }
    if agree {
      forall t | t in plugin.passedTests ensures t !in expected {
        var k :| 0 <= k < |reports| && IsCall(reports[k]) && reports[k].passed && GetTestName(reports[k].nodeid) == t;
      }
      forall t | t in plugin.failedTests ensures t in expected {
        var k :| 0 <= k < |reports| && IsCall(reports[k]) && !reports[k].passed && GetTestName(reports[k].nodeid) == t;
      }
    }
  }

  /** The solution has no expected failures: it behaves as expected
      exactly when every test passes in its `call` phase. */
  lemma SolutionMustPassEverything(reports: seq<Report>)
    ensures SimulateAutograder(None, "solution", reports).passed <==>
      forall k :: 0 <= k < |reports| && IsCall(reports[k]) ==> reports[k].passed
  {
    SimulateVerdict(None, "solution", reports);
  }

  /** Two `call` reports with the same test name but different outcomes
      (the same test function in two test files, say) make every chaff
      fail, whatever its directives. */
  lemma ConflictingOutcomesAlwaysFail(chaffText: Option<string>, chaffName: string, reports: seq<Report>, i: nat, j: nat)
    requires i < |reports| && j < |reports|
    requires IsCall(reports[i]) && IsCall(reports[j])
    requires GetTestName(reports[i].nodeid) == GetTestName(reports[j].nodeid)
    requires reports[i].passed && !reports[j].passed
    ensures !SimulateAutograder(chaffText, chaffName, reports).passed
  {
    SimulateVerdict(chaffText, chaffName, reports);
  }
}

=== FILE: wrappers.dfy ===
/** Optional values and error-carrying results, standing in for Python's
    `None` and for the exceptions the CLI raises. */
module Wrappers {

  /** A value that may be absent (Python's `Optional[T]`). */
  datatype Option<+T> = None | Some(value: T)

  /** Either a value or the error that was raised instead. */
  datatype Result<+T, +E> = Ok(value: T) | Err(error: E)
}
